=== FILE: README.md ===
# Snacksawa order–payment–license engine, in Dafny

This project models the core of the Snacksawa store server (`snacksawa_pay_server.js`).
That core is the engine that creates orders, confirms their payment by issuing a
time-limited license, cancels unpaid orders, looks orders up and validates license
keys, all over one in-memory store.

The store is an immutable `Store` value. It holds maps of orders, licenses and payment
records, the statistics record and the activation limit. Every operation is pure.
Confirmation, cancellation and validation return a `Reply(result, store)`. Order and
license creation return the new order or license with the next store. The search is a
method that only reads the store and returns the order it finds, if any.

Inputs the server draws from its environment are parameters:
- the clock, as a millisecond `Time`;
- the local calendar date, as the `today` string;
- the order id and the random bytes of a license key;
- md5, as an arbitrary `Digest` function from text to bytes.

Modules:
- `Catalog`: the price table.
- `Identifiers`: license-key shape, upper-case hex, and the clock-derived `PAY…`/`TRX…` ids.
- `Database`: entities, store and the per-tier revenue object.
- `Lifecycle`: `calculateExpiry`, `createLicense`, `createOrder`, `processPayment` and the cancel handler.
- `Search`: the search handler.
- `Validator`: the validate handler.
- `Invariants`: the store invariant and its preservation by each operation.
- `Traces`: runs of operations.
- `Properties`: cross-call promises.

Behaviour of the code worth noting:
- Confirmation refuses only PAID orders, so a CANCELLED order can still be paid (`Properties.CancelledOrderCanBePaid`).
- Cancelling an already CANCELLED order succeeds again.
- A payment adds to the day's sales without the day-rollover check that order creation makes.
- LIFETIME licenses run 100 years, not an open-ended term.
- An unknown tier is priced 0 and lasts 30 days.
- Validation never increments `activations` and never binds a device.

## Model

| member | source | states |
|---|---|---|
| Catalog.Lookup | snacksawa_pay_server.js:15-21 | a tier exists exactly for DAY, WEEK, MONTH, YEAR and LIFETIME, each with a positive price and day count |
| Catalog.PriceOf | snacksawa_pay_server.js:134 | the price is positive exactly for catalog codes, is the table's price for them and 0 for any other code |
| Catalog.DaysOf | snacksawa_pay_server.js:96 | the day count is positive exactly for catalog codes and 0 (falsy) otherwise |
| Identifiers.HexUpper | snacksawa_pay_server.js:81 | random bytes become exactly two upper-case hex digits each |
| Identifiers.HexRoundTrip | snacksawa_pay_server.js:81 | the hex text of the random part decodes back to the same bytes |
| Identifiers.KeyPrefix | snacksawa_pay_server.js:73-79 | each tier's prefix is five characters and names that tier back; any other tier gets the MONTH prefix |
| Identifiers.Checksum | snacksawa_pay_server.js:82 | the checksum is a prefix of the upper-case hex of the digest of the random part, at most six digits, and exactly its first six once the digest has at least three bytes (md5 has 16) |
| Identifiers.LicenseKey | snacksawa_pay_server.js:72-83 | a key is its tier's prefix (MONTH for an unknown tier), a dash, two hex digits per random byte, a dash and hex checksum digits, with the length these parts add up to |
| Identifiers.KeyRoundTrip | snacksawa_pay_server.js:72-83 | a key from 8 random bytes is 29 characters and parses back into its tier prefix, the same random bytes and the checksum of that random part |
| Identifiers.ChecksumDeterminedByRandom | snacksawa_pay_server.js:82 | two valid keys with the same random part have the same checksum |
| Identifiers.DecimalRoundTrip | snacksawa_pay_server.js:201 | the decimal text of a millisecond count reads back as that count |
| Identifiers.PaymentIdReadsBack | snacksawa_pay_server.js:201 | the digits after `PAY` in a payment id read back as the millisecond it was minted at |
| Identifiers.TransactionId | snacksawa_pay_server.js:185 | the fallback transaction id is `TRX` followed by decimal digits only |
| Identifiers.TransactionIdReadsBack | snacksawa_pay_server.js:185 | the digits after `TRX` read back as the millisecond of the confirmation |
| Identifiers.PaymentIdInjective | snacksawa_pay_server.js:201 | payments in different milliseconds get different `PAY` ids |
| Database.AddRevenue | snacksawa_pay_server.js:198 | the tier's revenue grows by the amount, every other tier's stays, the total grows by the amount, and keys stay distinct |
| Database.RevenueTotalIsSumOverTiers | snacksawa_pay_server.js:42-48 | with distinct keys, the sum of the revenue object's values is the sum of the per-tier revenues |
| Lifecycle.CalculateExpiry | snacksawa_pay_server.js:87-99 | LIFETIME expires a century (at least 50 years) after issue; otherwise after the custom days, else the catalog days, else 30 days |
| Lifecycle.CreateLicense | snacksawa_pay_server.js:102-128 | the new license is INACTIVE, unactivated, unbound, limited by the setting, keyed by the generated key; only the license map and counter change |
| Lifecycle.CreateOrder | snacksawa_pay_server.js:131-169 | a PENDING, keyless, unpaid order at the catalog price (0 if unknown) is stored; total orders +1; the day's counters roll over on a new date, else the day's orders +1 |
| Lifecycle.Settle | snacksawa_pay_server.js:183-189 | the supplied transaction id, payer and amount are kept; absent ones fall back to `TRX<now>`, the order's email and the order's price; the creation amount is kept and the paid time is now |
| Lifecycle.ProcessPayment | snacksawa_pay_server.js:172-223 | unknown or PAID orders are refused with no change; otherwise the order becomes PAID with only its paid fields changed, its payment details settled from the supplied data or its own fallbacks, bound to one new license of its tier, and one payment record of its price is stored |
| Lifecycle.PaymentBooksRevenue | snacksawa_pay_server.js:196-198 | a confirmation raises total sales, the day's sales and the tier's revenue by the order price, leaves other tiers and order counters alone, and does not roll over the day |
| Lifecycle.CancelOrder | snacksawa_pay_server.js:1385-1397 | unknown or PAID orders are refused with no change; any other order, including a CANCELLED one, becomes CANCELLED and nothing else changes |
| Search.LatestOrderFor | snacksawa_pay_server.js:1416-1418 | returns an order of the email with no later-created order of that email, or none exactly when the email has no order |
| Search.SearchOrder | snacksawa_pay_server.js:1407-1420 | a given, known id wins; otherwise a given email yields its most recent order; otherwise nothing |
| Validator.RemainingDays | snacksawa_pay_server.js:1468 | the remaining days are the whole days to expiry rounded up: the smallest count covering the time left |
| Validator.Validate | snacksawa_pay_server.js:1429-1472 | checks run in order (unknown, BANNED, expired with EXPIRED stored, quota, device); success holds exactly when all pass, and then only `lastUsed` changes |
| Invariants.InitialStore | snacksawa_pay_server.js:31-58 | the start-up store is empty, every counter and the day's figures are 0, the last reset is today, all five tiers' revenue is 0, three activations are allowed, and it satisfies the invariant |
| Invariants.CreateOrderPreservesValid | snacksawa_pay_server.js:131-165 | creating an order under an unused id keeps the invariant (total orders equal the stored orders, among the rest) and leaves PAID orders untouched |
| Invariants.ProcessPaymentPreservesValid | snacksawa_pay_server.js:172-210 | a confirmation with unused key and payment id keeps the invariant (key iff PAID, one license and record per paid order, revenue = price × paid orders per tier, sum = total sales) and leaves PAID orders untouched |
| Invariants.CancelOrderPreservesValid | snacksawa_pay_server.js:1389-1397 | cancellation keeps the invariant and never touches a PAID order |
| Invariants.ValidatePreservesValid | snacksawa_pay_server.js:1432-1458 | validation keeps the invariant and never touches an order |
| Traces.RunPreservesValid | snacksawa_pay_server.js:131-223 | after any run of order creations, confirmations, cancellations (lines 1385-1397) and validations (lines 1429-1472) with fresh ids the invariant holds and every PAID order is unchanged: PAID is terminal, since confirmation (line 176) and cancellation (line 1393) both refuse it |
| Traces.ReachableStoresAreValid | snacksawa_pay_server.js:31-58 | every store reachable from start-up counts exactly its orders in total orders, has a key exactly on PAID orders, revenue summing to total sales, and each tier's revenue equal to its price times its paid orders |
| Properties.PaymentIsIdempotent | snacksawa_pay_server.js:176-178 | confirming an already confirmed order is refused as already paid and changes nothing |
| Properties.PaymentAddsExactlyOne | snacksawa_pay_server.js:192-210 | with fresh ids a confirmation adds exactly one license and one payment record |
| Properties.LaterPaymentIdIsFresh | snacksawa_pay_server.js:201-202 | when all stored payments are earlier than now, the new payment id is unused |
| Properties.SameMillisecondPaymentReplacesRecord | snacksawa_pay_server.js:201-202 | a second payment in the same millisecond replaces the earlier record although sales still grow |
| Properties.CancelledOrderCanBePaid | snacksawa_pay_server.js:176-181 | after a successful cancel, a confirmation of that order still succeeds and makes it PAID |
| Properties.CancelRespectsPayment | snacksawa_pay_server.js:1393-1397 | a PAID order cannot be cancelled; a PENDING one is cancelled and stays keyless |
| Properties.CatalogPurchase | snacksawa_pay_server.js:131-198 | ordering and paying a catalog tier yields a PAID order bound to its license, lasting the tier's days (for LIFETIME a century, which is at least 50 years), with the price booked once |
| Properties.FreshLicenseValidates | snacksawa_pay_server.js:1429-1472 | a license just issued by a confirmation (lines 172-210) for any tier expires after its issue, and from its issue until its expiry it validates from any device, staying unbound and unactivated |
| Properties.WeekLicenseHasSevenDaysLeft | snacksawa_pay_server.js:1468 | a WEEK order costs 77 and its license, validated at the moment of issue, reports 7 remaining days |
| Properties.UnknownOrderIsNotFound | snacksawa_pay_server.js:174 | confirming the unknown id `SNK999999ZZZZZZ` is refused as not found |
| Properties.ExpiryIsLazyAndSticks | snacksawa_pay_server.js:1441-1446 | a license past expiry is refused, stored as EXPIRED, and refused as expired on every later validation |
| Properties.ValidationNeverBindsOrCounts | snacksawa_pay_server.js:1449-1458 | in a consistent store validation never reports an unauthorised device, hits the quota only for a non-positive limit, and never changes activations or bindings |
| Properties.SecondDeviceAlsoValidates | snacksawa_pay_server.js:1454-1458 | a license with no bound device stays unbound after a successful validation, so a second device validates too before expiry |

## Left out

- HTML pages, Express routing, response wrapping and the e-mail and log functions: presentation and console I/O.
- Admin login, the admin token check and the statistics/recent-orders projection: a shared-secret check outside the engine.
- The create-order handler's input checks: `CreateOrder` accepts any tier, as `createOrder` itself does.
- `generateOrderId`: the order id is a parameter. Its date stamp needs the calendar and its suffix is random.
- Id collisions: the invariant lemmas assume fresh order ids and license keys, and no two confirmations in the same millisecond, so that `PAY<now>` is an unused payment id. The map updates still overwrite on a collision, as the source does (`Properties.SameMillisecondPaymentReplacesRecord`).
- The settings other than `maxActivations` (`hwidLock`, titles, contacts), the unused `users` map, and the display-only tier name and colour.
- Calendar arithmetic: a day is 86,400,000 ms, so daylight-saving shifts of `setDate` are not modelled. `toLocaleDateString` is the `today` input.
- Lifecycle.CalculateExpiry: takes 100 years as exactly 36,524 days. The real span has 24 or 25 leap days depending on the start date.
- Validator.RemainingDays: uses exact integer ceiling division where the source uses floating-point division. The two agree for any expiry within a century.
- Search.LatestOrderFor: among orders of one email with equal creation times, the source returns the first-inserted one. The model leaves that choice open because it keeps orders in a map without insertion order.
- Prototype lookups: every object lookup is taken as an own-property lookup. Inherited property names such as `toString` or `constructor` are not modelled. This covers `prices[type]`, the revenue object, the key-prefix table (lines 73-79), `database.orders[id]` (lines 173, 1387, 1412) and `database.licenses[key]` (line 1432). In the source, tier `toString` passes the create-order check at line 1343 and gets a prefix that is the text of a function. Order id `constructor` finds `Object`, so a cancel succeeds and a confirmation turns `totalSales` into NaN. License key `constructor` makes validation throw. The model treats each such tier or id like any other unknown one.
- The seven clock reads of one confirmation are taken to be the same millisecond: the license's creation and expiry time (line 88), its `created` field (line 104), the order's `paidAt` (line 182), the `TRX` fallback transaction id (line 185), the `paidTime` (line 188), the payment id (line 201) and the payment record's `time` (line 208).

=== FILE: catalog.dfy ===
/** The price table: each tier code with its price (in yuan) and duration (in days). */
module Catalog {
  import opened Results

  datatype Tier = Tier(price: nat, days: nat)

  /** The tier codes, in the order the price table lists them. */
  const Codes: seq<string> := ["DAY", "WEEK", "MONTH", "YEAR", "LIFETIME"]

  /** The tier whose expiry is computed in years rather than from its day count. */
  const Lifetime: string := "LIFETIME"

  /** Own-property lookup in the price table. */
  function Lookup(code: string): (t: Option<Tier>)
    ensures t.Some? <==> code in Codes
    ensures t.Some? ==> t.value.price > 0 && t.value.days > 0
  {
    if code == "DAY" then Some(Tier(15, 1))
    else if code == "WEEK" then Some(Tier(77, 7))
    else if code == "MONTH" then Some(Tier(129, 30))
    else if code == "YEAR" then Some(Tier(256, 365))
    else if code == "LIFETIME" then Some(Tier(532, 9999))
    else None
  }

  /** `prices[code]?.price || 0`: the catalog price, or 0 for an unknown code. */
  function PriceOf(code: string): (p: nat)
    ensures p > 0 <==> code in Codes
    ensures code in Codes ==> p == Lookup(code).value.price
  {
    match Lookup(code)
    case Some(t) => t.price
    case None => 0
  }

  /** `prices[code]?.days`, or 0 (a falsy value) for an unknown code. */
  function DaysOf(code: string): (d: nat)
    ensures d > 0 <==> code in Codes
    ensures code in Codes ==> d == Lookup(code).value.days
  {
    match Lookup(code)
    case Some(t) => t.days
    case None => 0
  }
}

=== FILE: database.dfy ===
/**
 * The in-memory store: orders, licenses and payment records keyed by id, the
 * aggregate statistics and the one setting the engine reads.
 */
module Database {
  import opened Results

  /** A wall-clock instant in milliseconds since the epoch. */
  type Time = nat

  /** Milliseconds in one day. */
  const DayMs: nat := 86400000

  datatype OrderStatus = Pending | Paid | Cancelled

  /** What the buyer typed besides the required fields. */
  datatype CustomInfo = CustomInfo(qq: string, note: string)

  /** `paymentDetails`: `amount` is fixed at creation; the rest is filled in on payment. */
  datatype PaymentDetails = PaymentDetails(
    transactionId: Option<string>,
    payer: Option<string>,
    amount: int,
    paidAmount: Option<int>,
    paidTime: Option<Time>)

  datatype Order = Order(
    id: string,
    tier: string,
    status: OrderStatus,
    email: string,
    price: int,
    paymentMethod: string,
    created: Time,
    paidAt: Option<Time>,
    licenseKey: Option<string>,
    customInfo: CustomInfo,
    paymentDetails: PaymentDetails)

  /** INACTIVE at issue; EXPIRED is written lazily by validation; BANNED only by an administrator. */
  datatype LicenseStatus = Inactive | Expired | Banned

  datatype License = License(
    key: string,
    tier: string,
    status: LicenseStatus,
    created: Time,
    expiry: int,
    orderId: string,
    email: string,
    price: int,
    activations: int,
    maxActivations: int,
    hwid: seq<string>,
    lastUsed: Option<Time>)

  /** An append-only audit record of one confirmed payment. */
  datatype Payment = Payment(
    id: string,
    orderId: string,
    licenseKey: string,
    amount: int,
    paymentMethod: string,
    time: Time,
    payer: string)

  /** One property of the `revenue` object; the list keeps the object's insertion order. */
  datatype RevenueEntry = RevenueEntry(tier: string, amount: int)

  datatype Stats = Stats(
    totalSales: int,
    todaySales: int,
    totalOrders: nat,
    todayOrders: nat,
    totalLicenses: nat,
    revenue: seq<RevenueEntry>,
    lastReset: string)

  datatype Settings = Settings(maxActivations: int)

  datatype Store = Store(
    orders: map<string, Order>,
    licenses: map<string, License>,
    payments: map<string, Payment>,
    stats: Stats,
    settings: Settings)

  /** The failure kinds the engine and the validator report. */
  datatype Error =
    | OrderNotFound
    | AlreadyPaid
    | PaidOrderNotCancellable
    | LicenseNotFound
    | LicenseBanned
    | LicenseExpired
    | ActivationLimitReached
    | DeviceNotAuthorized

  /** An operation's reply together with the store it leaves behind. */
  datatype Reply<+T> = Reply(result: Result<T, Error>, store: Store)

  // ---------------------------------------------------------------------------
  // The per-tier revenue object

  /** `revenue[tier] || 0`: the first entry for the tier, or 0 when there is none. */
  function RevenueOf(rev: seq<RevenueEntry>, tier: string): int
  {
    if |rev| == 0 then 0
    else if rev[0].tier == tier then rev[0].amount
    else RevenueOf(rev[1..], tier)
  }

  /** The sum of all the object's values. */
  function RevenueTotal(rev: seq<RevenueEntry>): int
  {
    if |rev| == 0 then 0 else rev[0].amount + RevenueTotal(rev[1..])
  }

  function TierSet(rev: seq<RevenueEntry>): set<string>
  {
    if |rev| == 0 then {} else {rev[0].tier} + TierSet(rev[1..])
  }

  /** No tier has two entries, as for the keys of an object. */
  predicate DistinctTiers(rev: seq<RevenueEntry>)
  {
    |rev| == 0 || (rev[0].tier !in TierSet(rev[1..]) && DistinctTiers(rev[1..]))
  }

  /**
   * `revenue[tier] = (revenue[tier] || 0) + amount`: the tier's entry grows by `amount`
   * (a new entry goes last), every other tier keeps its value, and so does the key set
   * apart from the tier.
   */
  function AddRevenue(rev: seq<RevenueEntry>, tier: string, amount: int): (r: seq<RevenueEntry>)
    ensures RevenueOf(r, tier) == RevenueOf(rev, tier) + amount
    ensures forall t :: t != tier ==> RevenueOf(r, t) == RevenueOf(rev, t)
    ensures RevenueTotal(r) == RevenueTotal(rev) + amount
    ensures TierSet(r) == TierSet(rev) + {tier}
    ensures DistinctTiers(rev) ==> DistinctTiers(r)
  {
    if |rev| == 0 then [RevenueEntry(tier, amount)]
    else if rev[0].tier == tier then [RevenueEntry(tier, rev[0].amount + amount)] + rev[1..]
    else [rev[0]] + AddRevenue(rev[1..], tier, amount)
  }

  /** When the tiers are distinct, the total is the sum over tiers of each tier's revenue. */
  lemma {:induction false} RevenueTotalIsSumOverTiers(rev: seq<RevenueEntry>)
    requires DistinctTiers(rev)
    ensures RevenueTotal(rev) == SumOver(rev, TierSet(rev))
  {
    if |rev| > 0 {
      var t := rev[0].tier;
      RevenueTotalIsSumOverTiers(rev[1..]);
      SumOverSkipsHead(rev, TierSet(rev[1..]));
      SumOverSplit(rev, TierSet(rev[1..]), t);
      assert TierSet(rev) == TierSet(rev[1..]) + {t};
      assert RevenueOf(rev, t) == rev[0].amount;
    }
  }

  /** The sum of `RevenueOf(rev, t)` over the tiers `t` of a set. */
  ghost function SumOver(rev: seq<RevenueEntry>, tiers: set<string>): int
    decreases |tiers|
  {
    if tiers == {} then 0
    else
      var t :| t in tiers;
      RevenueOf(rev, t) + SumOver(rev, tiers - {t})
  }

  /** The sum over a set does not depend on which element is taken first. */
  lemma {:induction false} SumOverRemove(rev: seq<RevenueEntry>, tiers: set<string>, u: string)
    requires u in tiers
    ensures SumOver(rev, tiers) == RevenueOf(rev, u) + SumOver(rev, tiers - {u})
    decreases |tiers|
  {
    var t :| t in tiers && SumOver(rev, tiers) == RevenueOf(rev, t) + SumOver(rev, tiers - {t});
    if t != u {
      SumOverRemove(rev, tiers - {t}, u);
      SumOverRemove(rev, tiers - {u}, t);
      assert tiers - {t} - {u} == tiers - {u} - {t};
    }
  }

  lemma SumOverSplit(rev: seq<RevenueEntry>, tiers: set<string>, u: string)
    requires u !in tiers
    ensures SumOver(rev, tiers + {u}) == RevenueOf(rev, u) + SumOver(rev, tiers)
  {
    SumOverRemove(rev, tiers + {u}, u);
    assert tiers + {u} - {u} == tiers;
  }

  /** Over tiers other than the head's, the head entry is invisible. */
  lemma {:induction false} SumOverSkipsHead(rev: seq<RevenueEntry>, tiers: set<string>)
    requires |rev| > 0 && rev[0].tier !in tiers
    ensures SumOver(rev, tiers) == SumOver(rev[1..], tiers)
    decreases |tiers|
  {
    if tiers != {} {
      var t :| t in tiers;
      SumOverRemove(rev, tiers, t);
      SumOverRemove(rev[1..], tiers, t);
      SumOverSkipsHead(rev, tiers - {t});
    }
  }
}

=== FILE: identifiers.dfy ===
/**
 * Identifiers minted by the engine: license keys `PREFIX-RANDOM-CHECKSUM`, and the
 * clock-derived `PAY<ms>` payment ids and `TRX<ms>` transaction ids. The random
 * bytes and the md5 digest are inputs: the bytes are a parameter and the digest an
 * arbitrary function from text to bytes.
 */
module Identifiers {
  import opened Results
  import Catalog

  newtype byte = x: int | 0 <= x < 256

  /** A digest of a text, standing for md5. */
  type Digest = string -> seq<byte>

  // ---------------------------------------------------------------------------
  // Upper-case hexadecimal

  predicate IsHexDigit(c: char) {
    ('0' <= c <= '9') || ('A' <= c <= 'F')
  }

  function HexValue(c: char): (v: Option<nat>)
    ensures v.Some? <==> IsHexDigit(c)
    ensures v.Some? ==> v.value < 16
  {
    if '0' <= c <= '9' then Some(c as int - '0' as int)
    else if 'A' <= c <= 'F' then Some(c as int - 'A' as int + 10)
    else None
  }

  function HexChar(n: nat): (c: char)
    requires n < 16
    ensures IsHexDigit(c)
    ensures HexValue(c) == Some(n)
  {
    if n < 10 then ('0' as int + n) as char else ('A' as int + n - 10) as char
  }

  /** `bytes.toString('hex').toUpperCase()`: two upper-case digits per byte, high nibble first. */
  function HexUpper(b: seq<byte>): (h: string)
    ensures |h| == 2 * |b|
    ensures forall i :: 0 <= i < |h| ==> IsHexDigit(h[i])
  {
    if |b| == 0 then []
    else [HexChar(b[0] as nat / 16), HexChar(b[0] as nat % 16)] + HexUpper(b[1..])
  }

  /** Reads pairs of upper-case hex digits back into bytes. */
  function HexDecode(h: string): (r: Option<seq<byte>>)
    ensures r.Some? ==> |h| == 2 * |r.value|
    decreases |h|
  {
    if |h| == 0 then Some([])
    else if |h| == 1 then None
    else
      match (HexValue(h[0]), HexValue(h[1]), HexDecode(h[2..]))
      case (Some(hi), Some(lo), Some(rest)) => Some([(hi * 16 + lo) as byte] + rest)
      case _ => None
  }

  lemma {:induction false} HexRoundTrip(b: seq<byte>)
    ensures HexDecode(HexUpper(b)) == Some(b)
  {
    if |b| > 0 {
      var h := HexUpper(b);
      assert h[2..] == HexUpper(b[1..]);
      HexRoundTrip(b[1..]);
      assert b == [b[0]] + b[1..];
    }
  }

  /** `s.substring(0, n)`: at most the first `n` characters. */
  function Take(s: string, n: nat): (t: string)
    ensures |t| == if |s| < n then |s| else n
    ensures t <= s
  {
    if |s| < n then s else s[..n]
  }

  // ---------------------------------------------------------------------------
  // License keys

  /** The tier's key prefix; an unknown tier gets the MONTH prefix. */
  function KeyPrefix(tier: string): (p: string)
    ensures |p| == 5
    ensures tier in Catalog.Codes ==> TierOfPrefix(p) == Some(tier)
    ensures tier !in Catalog.Codes ==> TierOfPrefix(p) == Some("MONTH")
  {
    if tier == "DAY" then "SNK-D"
    else if tier == "WEEK" then "SNK-W"
    else if tier == "YEAR" then "SNK-Y"
    else if tier == "LIFETIME" then "SNK-L"
    else "SNK-M"
  }

  /** Which tier a key prefix stands for. */
  function TierOfPrefix(p: string): Option<string>
  {
    if p == "SNK-D" then Some("DAY")
    else if p == "SNK-W" then Some("WEEK")
    else if p == "SNK-M" then Some("MONTH")
    else if p == "SNK-Y" then Some("YEAR")
    else if p == "SNK-L" then Some("LIFETIME")
    else None
  }

  /** The first six upper-case hex digits of the digest of the random part. */
  function Checksum(randomHex: string, digest: Digest): (c: string)
    ensures |c| <= 6
    ensures forall i :: 0 <= i < |c| ==> IsHexDigit(c[i])
    ensures c <= HexUpper(digest(randomHex))
    ensures |digest(randomHex)| >= 3 ==> |c| == 6
  {
    Take(HexUpper(digest(randomHex)), 6)
  }

  /**
   * `generateLicenseKey(tier)` with the random bytes given: a prefix naming the tier
   * (MONTH for an unknown one), a dash, the random bytes in hex, a dash, and hex checksum
   * digits. `KeyRoundTrip` shows the hex part decodes back to the random bytes.
   */
  function LicenseKey(tier: string, random: seq<byte>, digest: Digest): (k: string)
    ensures |k| == 7 + 2 * |random| + |Checksum(HexUpper(random), digest)|
    ensures TierOfPrefix(k[..5]) == Some(if tier in Catalog.Codes then tier else "MONTH")
    ensures k[5] == '-' && k[6 + 2 * |random|] == '-'
    ensures forall i :: 5 < i < |k| && i != 6 + 2 * |random| ==> IsHexDigit(k[i])
  {
    var r := HexUpper(random);
    var k := KeyPrefix(tier) + "-" + r + "-" + Checksum(r, digest);
    assert k[..5] == KeyPrefix(tier);
    assert k[6..6 + 2 * |random|] == r;
    k
  }

  datatype KeyParts = KeyParts(prefix: string, random: seq<byte>, checksum: string)

  /** Splits a 29-character key into prefix, random bytes and checksum text. */
  function ParseKey(k: string): (r: Option<KeyParts>)
    ensures r.Some? ==> |k| == 29 && TierOfPrefix(r.value.prefix).Some? && |r.value.random| == 8
  {
    if |k| != 29 || k[5] != '-' || k[22] != '-' then None
    else if TierOfPrefix(k[..5]).None? then None
    else if !(forall i :: 23 <= i < 29 ==> IsHexDigit(k[i])) then None
    else
      match HexDecode(k[6..22])
      case Some(random) => Some(KeyParts(k[..5], random, k[23..]))
      case None => None
  }

  /** A key whose checksum is the one its random part determines. */
  predicate ChecksumValid(k: string, digest: Digest)
  {
    match ParseKey(k)
    case Some(parts) => parts.checksum == Checksum(HexUpper(parts.random), digest)
    case None => false
  }

  /** Every generated key has the documented shape and parses back to its parts. */
  lemma KeyRoundTrip(tier: string, random: seq<byte>, digest: Digest)
    requires |random| == 8
    requires |digest(HexUpper(random))| >= 3
    ensures var k := LicenseKey(tier, random, digest);
      && |k| == 29
      && ParseKey(k) == Some(KeyParts(KeyPrefix(tier), random, Checksum(HexUpper(random), digest)))
      && ChecksumValid(k, digest)
  {
    var r := HexUpper(random);
    var c := Checksum(r, digest);
    var k := LicenseKey(tier, random, digest);
    assert |c| == 6;
    assert k[..5] == KeyPrefix(tier);
    assert k[6..22] == r;
    assert k[23..] == c;
    assert forall i :: 23 <= i < 29 ==> k[i] == c[i - 23];
    HexRoundTrip(random);
  }

  /** Two valid keys with the same random part carry the same checksum. */
  lemma ChecksumDeterminedByRandom(k1: string, k2: string, digest: Digest)
    requires ChecksumValid(k1, digest) && ChecksumValid(k2, digest)
    requires k1[6..22] == k2[6..22]
    ensures k1[23..] == k2[23..]
  {
  }

  // ---------------------------------------------------------------------------
  // Clock-derived ids

  function DigitChar(d: nat): char
    requires d < 10
  {
    ('0' as int + d) as char
  }

  /** The decimal text of a millisecond count, as a template string renders it. */
  function Decimal(n: nat): (s: string)
    ensures |s| >= 1
    ensures forall i :: 0 <= i < |s| ==> '0' <= s[i] <= '9'
  {
    if n < 10 then [DigitChar(n)] else Decimal(n / 10) + [DigitChar(n % 10)]
  }

  function ParseDecimal(s: string): Option<nat>
  {
    if |s| == 0 || !('0' <= s[|s| - 1] <= '9') then None
    else
      var d := s[|s| - 1] as int - '0' as int;
      if |s| == 1 then Some(d)
      else
        match ParseDecimal(s[..|s| - 1])
        case Some(v) => Some(v * 10 + d)
        case None => None
  }

  lemma {:induction false} DecimalRoundTrip(n: nat)
    ensures ParseDecimal(Decimal(n)) == Some(n)
  {
    if n >= 10 {
      var s := Decimal(n);
      assert s[..|s| - 1] == Decimal(n / 10);
      DecimalRoundTrip(n / 10);
    }
  }

  /** `PAY${Date.now()}`: the id a payment record is stored under. */
  function PaymentId(now: nat): string
  {
    "PAY" + Decimal(now)
  }

  /** The digits of a payment id read back as the clock it was minted from. */
  lemma PaymentIdReadsBack(now: nat)
    ensures ParseDecimal(PaymentId(now)[3..]) == Some(now)
  {
    assert PaymentId(now)[3..] == Decimal(now);
    DecimalRoundTrip(now);
  }

  /** `TRX${Date.now()}`: the fallback transaction id. */
  function TransactionId(now: nat): (t: string)
    ensures |t| > 3 && t[..3] == "TRX"
    ensures forall i :: 3 <= i < |t| ==> '0' <= t[i] <= '9'
  {
    "TRX" + Decimal(now)
  }

  /** The digits of a transaction id read back as the clock it was minted from. */
  lemma TransactionIdReadsBack(now: nat)
    ensures ParseDecimal(TransactionId(now)[3..]) == Some(now)
  {
    assert TransactionId(now)[3..] == Decimal(now);
    DecimalRoundTrip(now);
  }

  /** Payments in different milliseconds get different ids. */
  lemma PaymentIdInjective(a: nat, b: nat)
    requires PaymentId(a) == PaymentId(b)
    ensures a == b
  {
    assert Decimal(a) == PaymentId(a)[3..];
    assert Decimal(b) == PaymentId(b)[3..];
    DecimalRoundTrip(a);
    DecimalRoundTrip(b);
  }
}

=== FILE: invariants.dfy ===
/**
 * Store invariants and their preservation by every operation: the license key is set
 * exactly on PAID orders, PAID orders never change again, each paid order has its one
 * license and one payment record, and the revenue object always adds up to total sales
 * with each tier holding its price times its number of paid orders.
 */
module Invariants {
  import opened Results
  import Catalog
  import opened Identifiers
  import opened Database
  import opened Lifecycle
  import opened Validator

  // ---------------------------------------------------------------------------
  // Counting paid orders

  function PaidOrders(orders: map<string, Order>): set<string>
  {
    set id | id in orders && orders[id].status == Paid
  }

  function PaidOfTier(orders: map<string, Order>, tier: string): set<string>
  {
    set id | id in orders && orders[id].status == Paid && orders[id].tier == tier
  }

  // ---------------------------------------------------------------------------
  // The invariant

  /** Each order sits under its id, has a key exactly when PAID, and kept its catalog price. */
  ghost predicate OrdersWellFormed(s: Store)
  {
    forall id :: id in s.orders ==>
      && s.orders[id].id == id
      && (s.orders[id].licenseKey.Some? <==> s.orders[id].status == Paid)
      && s.orders[id].price == Catalog.PriceOf(s.orders[id].tier)
  }

  /**
   * Paid orders and licenses point at each other, and no license has been activated
   * or bound to a device.
   */
  ghost predicate LicensesLinked(s: Store)
  {
    && (forall id :: id in s.orders && s.orders[id].status == Paid ==>
          && s.orders[id].licenseKey.Some?
          && s.orders[id].licenseKey.value in s.licenses
          && s.licenses[s.orders[id].licenseKey.value].orderId == id)
    && (forall k :: k in s.licenses ==>
          && s.licenses[k].key == k
          && s.licenses[k].orderId in s.orders
          && s.orders[s.licenses[k].orderId].licenseKey == Some(k)
          && s.licenses[k].activations == 0
          && s.licenses[k].hwid == []
          && s.licenses[k].maxActivations == s.settings.maxActivations)
  }

  /** Every payment record sits under the id its own time gives it. */
  ghost predicate PaymentsKeyed(s: Store)
  {
    forall p :: p in s.payments ==> s.payments[p].id == p && p == PaymentId(s.payments[p].time)
  }

  /**
   * One order per creation, one license and one payment record per paid order, and
   * both all-time counters agree.
   */
  ghost predicate CountsAgree(s: Store)
  {
    && s.stats.totalOrders == |s.orders|
    && s.stats.totalLicenses == |s.licenses|
    && |s.licenses| == |PaidOrders(s.orders)|
    && |s.payments| == |PaidOrders(s.orders)|
  }

  /** The revenue object adds up to total sales, tier by tier. */
  ghost predicate RevenueConsistent(s: Store)
  {
    && DistinctTiers(s.stats.revenue)
    && RevenueTotal(s.stats.revenue) == s.stats.totalSales
    && forall t :: RevenueOf(s.stats.revenue, t) == Catalog.PriceOf(t) * |PaidOfTier(s.orders, t)|
  }

  ghost predicate Valid(s: Store)
  {
    && OrdersWellFormed(s)
    && LicensesLinked(s)
    && PaymentsKeyed(s)
    && CountsAgree(s)
    && RevenueConsistent(s)
  }

  lemma ValidFromParts(s: Store)
    requires OrdersWellFormed(s) && LicensesLinked(s) && PaymentsKeyed(s) && CountsAgree(s)
    requires RevenueConsistent(s)
    ensures Valid(s)
  {
  }

  /** A PAID order is still there, unchanged, in the later store. */
  ghost predicate PaidKept(s: Store, s': Store)
  {
    forall id :: id in s.orders && s.orders[id].status == Paid ==> id in s'.orders && s'.orders[id] == s.orders[id]
  }

  // ---------------------------------------------------------------------------
  // The store at start-up

  const InitialRevenue: seq<RevenueEntry> :=
    [RevenueEntry("DAY", 0), RevenueEntry("WEEK", 0), RevenueEntry("MONTH", 0),
     RevenueEntry("YEAR", 0), RevenueEntry("LIFETIME", 0)]

  lemma {:induction false} ZeroRevenue(rev: seq<RevenueEntry>, t: string)
    requires forall i :: 0 <= i < |rev| ==> rev[i].amount == 0
    ensures RevenueOf(rev, t) == 0 && RevenueTotal(rev) == 0
  {
    if |rev| > 0 {
      ZeroRevenue(rev[1..], t);
    }
  }

  /** Empty maps, zero counters, every catalog tier's revenue at 0, three activations allowed. */
  function InitialStore(today: string): (s: Store)
    ensures Valid(s)
    ensures s.stats.totalSales == 0 && s.stats.totalOrders == 0 && s.stats.totalLicenses == 0
    ensures s.stats.todaySales == 0 && s.stats.todayOrders == 0 && s.stats.lastReset == today
    ensures s.orders == map[] && s.licenses == map[] && s.payments == map[]
    ensures TierSet(s.stats.revenue) == set t | t in Catalog.Codes
    ensures s.settings.maxActivations == 3
  {
    var s := Store(map[], map[], map[], Stats(0, 0, 0, 0, 0, InitialRevenue, today), Settings(3));
    InitialRevenueConsistent(s);
    s
  }

  lemma InitialRevenueConsistent(s: Store)
    requires s.orders == map[] && s.stats.revenue == InitialRevenue && s.stats.totalSales == 0
    ensures RevenueConsistent(s)
  {
    assert DistinctTiers(InitialRevenue);
    ZeroRevenue(InitialRevenue, "");
    forall t
      ensures RevenueOf(s.stats.revenue, t) == Catalog.PriceOf(t) * |PaidOfTier(s.orders, t)|
    {
      ZeroRevenue(InitialRevenue, t);
      assert PaidOfTier(s.orders, t) == {};
    }
  }

  // ---------------------------------------------------------------------------
  // Preservation, operation by operation

  lemma CreateOrderPreservesValid(s: Store, tier: string, email: string, paymentMethod: string,
                                  info: CustomInfo, orderId: string, now: Time, today: string)
    requires Valid(s)
    requires orderId !in s.orders
    ensures Valid(CreateOrder(s, tier, email, paymentMethod, info, orderId, now, today).store)
    ensures PaidKept(s, CreateOrder(s, tier, email, paymentMethod, info, orderId, now, today).store)
  {
    var r := CreateOrder(s, tier, email, paymentMethod, info, orderId, now, today);
    var s' := r.store;
    assert r.order.status != Paid;
    PaidSetsUnchanged(s.orders, orderId, r.order);
    assert OrdersWellFormed(s');
    assert LicensesLinked(s');
    assert CountsAgree(s');
    RevenueUnchanged(s.orders, s'.orders, s.stats.revenue);
    ValidFromParts(s');
  }

  /** Storing a non-PAID order under an id that held no PAID order leaves every paid set alone. */
  lemma PaidSetsUnchanged(orders: map<string, Order>, id: string, o: Order)
    requires o.status != Paid
    requires id in orders ==> orders[id].status != Paid
    ensures PaidOrders(orders[id := o]) == PaidOrders(orders)
    ensures forall t :: PaidOfTier(orders[id := o], t) == PaidOfTier(orders, t)
  {
    assert PaidOrders(orders[id := o]) == PaidOrders(orders);
    forall t
      ensures PaidOfTier(orders[id := o], t) == PaidOfTier(orders, t)
    {
    }
  }

  /** Revenue that matched the paid orders still does when neither changed. */
  lemma RevenueUnchanged(orders: map<string, Order>, orders': map<string, Order>, rev: seq<RevenueEntry>)
    requires forall t :: PaidOfTier(orders', t) == PaidOfTier(orders, t)
    requires forall t :: RevenueOf(rev, t) == Catalog.PriceOf(t) * |PaidOfTier(orders, t)|
    ensures forall t :: RevenueOf(rev, t) == Catalog.PriceOf(t) * |PaidOfTier(orders', t)|
  {
  }

  /** The ids a confirmation would insert are not yet taken. */
  ghost predicate PaymentFresh(s: Store, orderId: string, now: Time, random: seq<byte>, digest: Digest)
  {
    && (orderId in s.orders ==> LicenseKey(s.orders[orderId].tier, random, digest) !in s.licenses)
    && PaymentId(now) !in s.payments
  }

  lemma ProcessPaymentPreservesValid(s: Store, orderId: string, evidence: Evidence, now: Time,
                                     random: seq<byte>, digest: Digest)
    requires Valid(s)
    requires PaymentFresh(s, orderId, now, random, digest)
    ensures Valid(ProcessPayment(s, orderId, evidence, now, random, digest).store)
    ensures PaidKept(s, ProcessPayment(s, orderId, evidence, now, random, digest).store)
  {
    var r := ProcessPayment(s, orderId, evidence, now, random, digest);
    if r.result.Success? {
      PaymentKeepsOrdersWellFormed(s, orderId, evidence, now, random, digest);
      PaymentKeepsLicensesLinked(s, orderId, evidence, now, random, digest);
      PaymentKeepsCounts(s, orderId, evidence, now, random, digest);
      PaymentKeepsRevenue(s, orderId, evidence, now, random, digest);
      PaymentKeepsPaymentsKeyed(s, orderId, evidence, now, random, digest);
      ValidFromParts(r.store);
      PaymentKeepsPaid(s, orderId, evidence, now, random, digest);
    } else {
      assert r.store == s;
    }
  }

  lemma PaymentKeepsPaymentsKeyed(s: Store, orderId: string, evidence: Evidence, now: Time,
                                  random: seq<byte>, digest: Digest)
    requires PaymentsKeyed(s)
    requires orderId in s.orders && s.orders[orderId].status != Paid
    ensures PaymentsKeyed(ProcessPayment(s, orderId, evidence, now, random, digest).store)
  {
  }

  lemma PaymentKeepsPaid(s: Store, orderId: string, evidence: Evidence, now: Time,
                         random: seq<byte>, digest: Digest)
    requires orderId in s.orders && s.orders[orderId].status != Paid
    ensures PaidKept(s, ProcessPayment(s, orderId, evidence, now, random, digest).store)
  {
  }

  lemma PaymentKeepsOrdersWellFormed(s: Store, orderId: string, evidence: Evidence, now: Time,
                                     random: seq<byte>, digest: Digest)
    requires OrdersWellFormed(s)
    requires orderId in s.orders && s.orders[orderId].status != Paid
    ensures OrdersWellFormed(ProcessPayment(s, orderId, evidence, now, random, digest).store)
  {
  }

  lemma PaymentKeepsLicensesLinked(s: Store, orderId: string, evidence: Evidence, now: Time,
                                   random: seq<byte>, digest: Digest)
    requires OrdersWellFormed(s) && LicensesLinked(s)
    requires orderId in s.orders && s.orders[orderId].status != Paid
    requires PaymentFresh(s, orderId, now, random, digest)
    ensures LicensesLinked(ProcessPayment(s, orderId, evidence, now, random, digest).store)
  {
    forall k | k in s.licenses
      ensures s.licenses[k].orderId != orderId
    {
    }
  }

  lemma PaymentKeepsCounts(s: Store, orderId: string, evidence: Evidence, now: Time,
                           random: seq<byte>, digest: Digest)
    requires CountsAgree(s)
    requires orderId in s.orders && s.orders[orderId].status != Paid
    requires PaymentFresh(s, orderId, now, random, digest)
    ensures CountsAgree(ProcessPayment(s, orderId, evidence, now, random, digest).store)
  {
    var s' := ProcessPayment(s, orderId, evidence, now, random, digest).store;
    assert PaidOrders(s'.orders) == PaidOrders(s.orders) + {orderId};
    assert orderId !in PaidOrders(s.orders);
  }

  lemma PaymentKeepsRevenue(s: Store, orderId: string, evidence: Evidence, now: Time,
                            random: seq<byte>, digest: Digest)
    requires OrdersWellFormed(s) && RevenueConsistent(s)
    requires orderId in s.orders && s.orders[orderId].status != Paid
    ensures RevenueConsistent(ProcessPayment(s, orderId, evidence, now, random, digest).store)
  {
    var r := ProcessPayment(s, orderId, evidence, now, random, digest);
    var o := s.orders[orderId];
    PaymentBooksRevenue(s, orderId, evidence, now, random, digest);
    var paid := r.result.value.order;
    assert r.store.orders == s.orders[orderId := paid];
    assert paid.status == Paid && paid.tier == o.tier;
    var price: string -> int := t => Catalog.PriceOf(t);
    assert o.price == price(o.tier);
    RevenueFollowsPayment(s.orders, orderId, paid, price, s.stats.revenue, r.store.stats.revenue);
  }

  /**
   * If a revenue object matched price times paid orders per tier, adding the paid
   * order's price to its tier keeps it so after that order is paid.
   */
  lemma RevenueFollowsPayment(orders: map<string, Order>, id: string, paid: Order, price: string -> int,
                              rev: seq<RevenueEntry>, rev': seq<RevenueEntry>)
    requires id in orders && orders[id].status != Paid
    requires paid.status == Paid && paid.tier == orders[id].tier
    requires orders[id].price == price(orders[id].tier)
    requires forall t :: RevenueOf(rev, t) == price(t) * |PaidOfTier(orders, t)|
    requires RevenueOf(rev', paid.tier) == RevenueOf(rev, paid.tier) + orders[id].price
    requires forall t :: t != paid.tier ==> RevenueOf(rev', t) == RevenueOf(rev, t)
    ensures forall t :: RevenueOf(rev', t) == price(t) * |PaidOfTier(orders[id := paid], t)|
  {
    PaidOfTierAfterPaying(orders, id, paid);
    forall t
      ensures RevenueOf(rev', t) == price(t) * |PaidOfTier(orders[id := paid], t)|
    {
      if t == paid.tier {
        var n := |PaidOfTier(orders, t)|;
        assert |PaidOfTier(orders[id := paid], t)| == n + 1;
        assert price(t) * (n + 1) == price(t) * n + price(t);
      }
    }
  }

  /** Paying order `id` adds it to its own tier's paid set and leaves the other tiers' alone. */
  lemma PaidOfTierAfterPaying(orders: map<string, Order>, id: string, paid: Order)
    requires id in orders && orders[id].status != Paid
    requires paid.status == Paid && paid.tier == orders[id].tier
    ensures PaidOfTier(orders[id := paid], paid.tier) == PaidOfTier(orders, paid.tier) + {id}
    ensures id !in PaidOfTier(orders, paid.tier)
    ensures forall t :: t != paid.tier ==> PaidOfTier(orders[id := paid], t) == PaidOfTier(orders, t)
  {
    forall t | t != paid.tier
      ensures PaidOfTier(orders[id := paid], t) == PaidOfTier(orders, t)
    {
    }
  }

  lemma CancelOrderPreservesValid(s: Store, orderId: string)
    requires Valid(s)
    ensures Valid(CancelOrder(s, orderId).store)
    ensures PaidKept(s, CancelOrder(s, orderId).store)
  {
    var r := CancelOrder(s, orderId);
    if r.result.Success? {
      var s' := r.store;
      var o := s'.orders[orderId];
      assert s'.orders == s.orders[orderId := o];
      PaidSetsUnchanged(s.orders, orderId, o);
      forall k | k in s.licenses
        ensures s.licenses[k].orderId != orderId
      {
      }
      assert OrdersWellFormed(s');
      assert LicensesLinked(s');
      assert CountsAgree(s');
      RevenueUnchanged(s.orders, s'.orders, s.stats.revenue);
      ValidFromParts(s');
    } else {
      assert r.store == s;
    }
  }

  lemma ValidatePreservesValid(s: Store, key: string, hwid: string, now: Time,
                               tokenRandom: seq<byte>, digest: Digest)
    requires Valid(s)
    ensures Valid(Validate(s, key, hwid, now, tokenRandom, digest).store)
    ensures PaidKept(s, Validate(s, key, hwid, now, tokenRandom, digest).store)
  {
    var s' := Validate(s, key, hwid, now, tokenRandom, digest).store;
    if s' != s {
      var lic := s.licenses[key];
      var lic' := s'.licenses[key];
      assert s' == s.(licenses := s.licenses[key := lic']);
      assert lic' == lic.(status := lic'.status, lastUsed := lic'.lastUsed);
      LicenseUpdateKeepsValid(s, key, lic');
    }
  }

  /** Rewriting a license's status or last use keeps every part of the invariant. */
  lemma LicenseUpdateKeepsValid(s: Store, key: string, lic': License)
    requires Valid(s)
    requires key in s.licenses
    requires lic' == s.licenses[key].(status := lic'.status, lastUsed := lic'.lastUsed)
    ensures Valid(s.(licenses := s.licenses[key := lic']))
  {
    var s' := s.(licenses := s.licenses[key := lic']);
    assert s'.licenses.Keys == s.licenses.Keys;
    assert OrdersWellFormed(s') && PaymentsKeyed(s') && RevenueConsistent(s');
    assert LicensesLinked(s');
    assert CountsAgree(s');
    ValidFromParts(s');
  }
}

=== FILE: lifecycle.dfy ===
/**
 * The order lifecycle engine: order creation, payment confirmation (which issues a
 * license, records the payment and books the revenue) and cancellation. Each
 * operation is a pure transition from one store to the next.
 */
module Lifecycle {
  import opened Results
  import Catalog
  import opened Identifiers
  import opened Database

  /** `setFullYear(year + 100)`, taken as 36524 days. */
  const CenturyMs: nat := 36524 * DayMs

  /** A created order with the store that now holds it. */
  datatype Placed = Placed(order: Order, store: Store)

  /** An issued license with the store that now holds it. */
  datatype Issued = Issued(license: License, store: Store)

  /** What a successful confirmation hands back: the paid order and its license. */
  datatype Receipt = Receipt(order: Order, license: License)

  /** The payment data a confirmation carries; "" and 0 stand for an absent (falsy) field. */
  datatype Evidence = Evidence(transactionId: string, payer: string, amount: int)

  /**
   * `calculateExpiry(tier, customDays)` at instant `now`: a LIFETIME license runs a
   * century; any other runs `customDays || catalog days || 30` days.
   */
  function CalculateExpiry(tier: string, customDays: Option<int>, now: Time): (e: int)
    ensures tier == Catalog.Lifetime ==> e == now + CenturyMs && e - now >= 50 * 365 * DayMs
    ensures tier != Catalog.Lifetime && customDays.Some? && customDays.value != 0 ==>
      e == now + customDays.value * DayMs
    ensures tier != Catalog.Lifetime && (customDays.None? || customDays.value == 0) ==>
      e == now + (if tier in Catalog.Codes then Catalog.Lookup(tier).value.days else 30) * DayMs
  {
    if tier == Catalog.Lifetime then now + CenturyMs
    else
      var days :=
        if customDays.Some? && customDays.value != 0 then customDays.value
        else if Catalog.DaysOf(tier) != 0 then Catalog.DaysOf(tier)
        else 30;
      now + days * DayMs
  }

  /**
   * `createLicense`: a fresh INACTIVE license with no activations and no bound
   * devices, inserted under its key; only the license map and the license counter change.
   */
  function CreateLicense(s: Store, tier: string, orderId: string, email: string, customDays: Option<int>,
                         now: Time, random: seq<byte>, digest: Digest): (r: Issued)
    ensures r.license.key == LicenseKey(tier, random, digest)
    ensures r.license.tier == tier && r.license.orderId == orderId && r.license.email == email
    ensures r.license.status == Inactive && r.license.activations == 0 && r.license.hwid == []
    ensures r.license.maxActivations == s.settings.maxActivations && r.license.lastUsed == None
    ensures r.license.created == now && r.license.expiry == CalculateExpiry(tier, customDays, now)
    ensures r.license.price == Catalog.PriceOf(tier)
    ensures r.store.licenses == s.licenses[r.license.key := r.license]
    ensures r.store.stats == s.stats.(totalLicenses := s.stats.totalLicenses + 1)
    ensures r.store.orders == s.orders && r.store.payments == s.payments && r.store.settings == s.settings
  {
    var key := LicenseKey(tier, random, digest);
    var license := License(
      key, tier, Inactive, now, CalculateExpiry(tier, customDays, now), orderId, email,
      Catalog.PriceOf(tier), 0, s.settings.maxActivations, [], None);
    Issued(license, s.(licenses := s.licenses[key := license],
                       stats := s.stats.(totalLicenses := s.stats.totalLicenses + 1)))
  }

  /**
   * `createOrder`: a PENDING order priced from the catalog (0 for an unknown tier),
   * stored under `orderId`. The all-time order counter grows by one; the day's order
   * counter grows by one, or restarts at 1 with the day's sales at 0 when the
   * calendar day differs from the last reset.
   */
  function CreateOrder(s: Store, tier: string, email: string, paymentMethod: string, info: CustomInfo,
                       orderId: string, now: Time, today: string): (r: Placed)
    ensures r.order.id == orderId && r.order.tier == tier && r.order.email == email
    ensures r.order.paymentMethod == paymentMethod && r.order.customInfo == info && r.order.created == now
    ensures r.order.status == Pending && r.order.licenseKey == None && r.order.paidAt == None
    ensures r.order.price == Catalog.PriceOf(tier)
    ensures r.order.paymentDetails == PaymentDetails(None, None, r.order.price, None, None)
    ensures r.store.orders == s.orders[orderId := r.order]
    ensures r.store.licenses == s.licenses && r.store.payments == s.payments && r.store.settings == s.settings
    ensures var before, after := s.stats, r.store.stats;
      && after.totalOrders == before.totalOrders + 1
      && after.totalSales == before.totalSales
      && after.totalLicenses == before.totalLicenses
      && after.revenue == before.revenue
      && after.lastReset == today
      && (before.lastReset != today ==> after.todayOrders == 1 && after.todaySales == 0)
      && (before.lastReset == today ==>
            after.todayOrders == before.todayOrders + 1 && after.todaySales == before.todaySales)
  {
    var price := Catalog.PriceOf(tier);
    var order := Order(
      orderId, tier, Pending, email, price, paymentMethod, now, None, None, info,
      PaymentDetails(None, None, price, None, None));
    var counted := s.stats.(totalOrders := s.stats.totalOrders + 1);
    var stats :=
      if counted.lastReset != today then counted.(todayOrders := 1, todaySales := 0, lastReset := today)
      else counted.(todayOrders := counted.todayOrders + 1);
    Placed(order, s.(orders := s.orders[orderId := order], stats := stats))
  }

  /** The payment details after confirmation: absent evidence falls back to the order's own data. */
  function Settle(o: Order, evidence: Evidence, now: Time): (d: PaymentDetails)
    ensures d.amount == o.paymentDetails.amount && d.paidTime == Some(now)
    ensures d.payer == Some(if evidence.payer != "" then evidence.payer else o.email)
    ensures d.paidAmount == Some(if evidence.amount != 0 then evidence.amount else o.price)
    ensures evidence.transactionId != "" ==> d.transactionId == Some(evidence.transactionId)
    ensures evidence.transactionId == "" ==> d.transactionId == Some(TransactionId(now))
  {
    o.paymentDetails.(
      transactionId := Some(if evidence.transactionId != "" then evidence.transactionId else TransactionId(now)),
      payer := Some(if evidence.payer != "" then evidence.payer else o.email),
      paidAmount := Some(if evidence.amount != 0 then evidence.amount else o.price),
      paidTime := Some(now))
  }

  /** The order's payment has been confirmed at `now`, binding `key`; nothing else of it changed. */
  predicate PaidVersionOf(after: Order, before: Order, key: string, now: Time)
  {
    && after.status == Paid
    && after.paidAt == Some(now)
    && after.licenseKey == Some(key)
    && after.paymentDetails.paidTime == Some(now)
    && after.paymentDetails.amount == before.paymentDetails.amount
    && after.(status := before.status, paidAt := before.paidAt, licenseKey := before.licenseKey,
              paymentDetails := before.paymentDetails) == before
  }

  /**
   * `processPayment`: an unknown id or a PAID order is refused with the store untouched.
   * Any other order (PENDING, and also CANCELLED) becomes PAID, gets a newly issued
   * license, one payment record for its price is stored under `PAY<now>`, and
   * total sales, the day's sales and the tier's revenue each grow by the order's price.
   */
  function ProcessPayment(s: Store, orderId: string, evidence: Evidence, now: Time,
                          random: seq<byte>, digest: Digest): (r: Reply<Receipt>)
    ensures orderId !in s.orders ==> r == Reply(Failure(OrderNotFound), s)
    ensures orderId in s.orders && s.orders[orderId].status == Paid ==> r == Reply(Failure(AlreadyPaid), s)
    ensures r.result.Success? <==> orderId in s.orders && s.orders[orderId].status != Paid
    ensures r.result.Success? ==>
      var before, after, lic := s.orders[orderId], r.result.value.order, r.result.value.license;
      && PaidVersionOf(after, before, lic.key, now)
      && after.paymentDetails == Settle(before, evidence, now)
      && r.store.orders == s.orders[orderId := after]
      && lic.key == LicenseKey(before.tier, random, digest)
      && lic.tier == before.tier && lic.orderId == orderId && lic.email == before.email
      && lic.status == Inactive && lic.activations == 0 && lic.hwid == [] && lic.lastUsed == None
      && lic.maxActivations == s.settings.maxActivations
      && lic.created == now && lic.expiry == CalculateExpiry(before.tier, None, now)
      && lic.price == Catalog.PriceOf(before.tier)
      && r.store.licenses == s.licenses[lic.key := lic]
      && r.store.payments == s.payments[PaymentId(now) :=
           Payment(PaymentId(now), orderId, lic.key, before.price, before.paymentMethod, now, before.email)]
      && r.store.settings == s.settings
  {
    if orderId !in s.orders then Reply(Failure(OrderNotFound), s)
    else
      var order := s.orders[orderId];
      if order.status == Paid then Reply(Failure(AlreadyPaid), s)
      else
        var issued := CreateLicense(s, order.tier, orderId, order.email, None, now, random, digest);
        var key := issued.license.key;
        var paid := order.(status := Paid, paidAt := Some(now), paymentDetails := Settle(order, evidence, now),
                           licenseKey := Some(key));
        var st := issued.store.stats;
        var stats := st.(totalSales := st.totalSales + order.price,
                         todaySales := st.todaySales + order.price,
                         revenue := AddRevenue(st.revenue, order.tier, order.price));
        var pid := PaymentId(now);
        var record := Payment(pid, orderId, key, order.price, order.paymentMethod, now, order.email);
        Reply(Success(Receipt(paid, issued.license)),
              issued.store.(orders := s.orders[orderId := paid], payments := s.payments[pid := record],
                            stats := stats))
  }

  /**
   * The statistics after a successful confirmation: the three sales figures grow by
   * the order's price, the license counter by one, and every other tier's revenue
   * and both order counters stay put (the day's sales are not rolled over here).
   */
  lemma PaymentBooksRevenue(s: Store, orderId: string, evidence: Evidence, now: Time,
                            random: seq<byte>, digest: Digest)
    requires orderId in s.orders && s.orders[orderId].status != Paid
    ensures var o, before, after := s.orders[orderId], s.stats,
                                    ProcessPayment(s, orderId, evidence, now, random, digest).store.stats;
      && after.totalSales == before.totalSales + o.price
      && after.todaySales == before.todaySales + o.price
      && RevenueOf(after.revenue, o.tier) == RevenueOf(before.revenue, o.tier) + o.price
      && (forall t :: t != o.tier ==> RevenueOf(after.revenue, t) == RevenueOf(before.revenue, t))
      && RevenueTotal(after.revenue) == RevenueTotal(before.revenue) + o.price
      && after.totalLicenses == before.totalLicenses + 1
      && after.totalOrders == before.totalOrders && after.todayOrders == before.todayOrders
      && after.lastReset == before.lastReset
  {
  }

  /**
   * The cancel handler: an unknown id or a PAID order is refused with the store
   * untouched; any other order (also one already CANCELLED) becomes CANCELLED and
   * nothing else changes.
   */
  function CancelOrder(s: Store, orderId: string): (r: Reply<()>)
    ensures orderId !in s.orders ==> r == Reply(Failure(OrderNotFound), s)
    ensures orderId in s.orders && s.orders[orderId].status == Paid ==>
      r == Reply(Failure(PaidOrderNotCancellable), s)
    ensures r.result.Success? <==> orderId in s.orders && s.orders[orderId].status != Paid
    ensures r.result.Success? ==>
      && r.store.orders.Keys == s.orders.Keys
      && r.store.orders[orderId].status == Cancelled
      && r.store.orders[orderId].(status := s.orders[orderId].status) == s.orders[orderId]
      && (forall id :: id in s.orders && id != orderId ==> r.store.orders[id] == s.orders[id])
      && r.store.licenses == s.licenses && r.store.payments == s.payments
      && r.store.stats == s.stats && r.store.settings == s.settings
  {
    if orderId !in s.orders then Reply(Failure(OrderNotFound), s)
    else if s.orders[orderId].status == Paid then Reply(Failure(PaidOrderNotCancellable), s)
    else Reply(Success(()), s.(orders := s.orders[orderId := s.orders[orderId].(status := Cancelled)]))
  }
}

=== FILE: properties.dfy ===
/**
 * What the lifecycle promises across calls: confirmation is idempotent, PAID orders
 * refuse cancellation, a purchase yields a license of the tier's duration, and the
 * validator's lazy expiry and missing device binding behave as described.
 */
module Properties {
  import opened Results
  import Catalog
  import opened Identifiers
  import opened Database
  import opened Lifecycle
  import opened Validator
  import opened Invariants

  // ---------------------------------------------------------------------------
  // Payment

  /** A repeated confirmation is refused and changes nothing: no second license, record or revenue. */
  lemma PaymentIsIdempotent(s: Store, orderId: string, evidence: Evidence, now: Time,
                            random: seq<byte>, digest: Digest,
                            evidence2: Evidence, now2: Time, random2: seq<byte>, digest2: Digest)
    requires ProcessPayment(s, orderId, evidence, now, random, digest).result.Success?
    ensures var s1 := ProcessPayment(s, orderId, evidence, now, random, digest).store;
      ProcessPayment(s1, orderId, evidence2, now2, random2, digest2) == Reply(Failure(AlreadyPaid), s1)
  {
  }

  /** With fresh ids, a confirmation adds exactly one license and exactly one payment record. */
  lemma PaymentAddsExactlyOne(s: Store, orderId: string, evidence: Evidence, now: Time,
                              random: seq<byte>, digest: Digest)
    requires ProcessPayment(s, orderId, evidence, now, random, digest).result.Success?
    requires PaymentFresh(s, orderId, now, random, digest)
    ensures var s1 := ProcessPayment(s, orderId, evidence, now, random, digest).store;
      && |s1.licenses| == |s.licenses| + 1
      && |s1.payments| == |s.payments| + 1
      && s1.stats.totalLicenses == s.stats.totalLicenses + 1
  {
    PaymentBooksRevenue(s, orderId, evidence, now, random, digest);
  }

  /**
   * The payment id comes from the clock: when every stored payment happened before
   * `now`, the id `PAY<now>` is unused.
   */
  lemma LaterPaymentIdIsFresh(s: Store, now: Time)
    requires PaymentsKeyed(s)
    requires forall p :: p in s.payments ==> s.payments[p].time < now
    ensures PaymentId(now) !in s.payments
  {
    if PaymentId(now) in s.payments {
      var p := PaymentId(now);
      PaymentIdInjective(s.payments[p].time, now);
    }
  }

  /**
   * Two confirmations in the same millisecond share the id `PAY<now>`: the second
   * record replaces the first, so the record count does not grow although sales do.
   */
  lemma SameMillisecondPaymentReplacesRecord(s: Store, orderId: string, evidence: Evidence, now: Time,
                                             random: seq<byte>, digest: Digest)
    requires ProcessPayment(s, orderId, evidence, now, random, digest).result.Success?
    requires PaymentId(now) in s.payments
    ensures var s1 := ProcessPayment(s, orderId, evidence, now, random, digest).store;
      && |s1.payments| == |s.payments|
      && s1.payments[PaymentId(now)].orderId == orderId
      && s1.stats.totalSales == s.stats.totalSales + s.orders[orderId].price
  {
    PaymentBooksRevenue(s, orderId, evidence, now, random, digest);
    assert s.payments[PaymentId(now) := ProcessPayment(s, orderId, evidence, now, random, digest)
      .store.payments[PaymentId(now)]].Keys == s.payments.Keys;
  }

  /** Confirmation does not look at CANCELLED: a cancelled order can still be paid. */
  lemma CancelledOrderCanBePaid(s: Store, orderId: string, evidence: Evidence, now: Time,
                                random: seq<byte>, digest: Digest)
    requires CancelOrder(s, orderId).result.Success?
    ensures var s1 := CancelOrder(s, orderId).store;
      var r := ProcessPayment(s1, orderId, evidence, now, random, digest);
      r.result.Success? && r.store.orders[orderId].status == Paid
  {
  }

  // ---------------------------------------------------------------------------
  // Cancellation

  /** In a consistent store a PAID order cannot be cancelled, and cancelling a PENDING one leaves it keyless. */
  lemma CancelRespectsPayment(s: Store, orderId: string)
    requires Valid(s)
    requires orderId in s.orders
    ensures s.orders[orderId].status == Paid ==>
      CancelOrder(s, orderId) == Reply(Failure(PaidOrderNotCancellable), s)
    ensures s.orders[orderId].status == Pending ==>
      var r := CancelOrder(s, orderId);
      r.result.Success? && r.store.orders[orderId].status == Cancelled
      && r.store.orders[orderId].licenseKey == None
  {
  }

  // ---------------------------------------------------------------------------
  // A purchase from start to license

  /**
   * Ordering a catalog tier and confirming it gives a PAID order bound to a license
   * whose life is the tier's day count (a century, at least 50 years, for LIFETIME), and books the
   * tier's price once.
   */
  lemma CatalogPurchase(s: Store, tier: string, email: string, paymentMethod: string, info: CustomInfo,
                        orderId: string, created: Time, today: string,
                        evidence: Evidence, paidAt: Time, random: seq<byte>, digest: Digest)
    requires tier in Catalog.Codes
    ensures var placed := CreateOrder(s, tier, email, paymentMethod, info, orderId, created, today);
      var r := ProcessPayment(placed.store, orderId, evidence, paidAt, random, digest);
      && r.result.Success?
      && r.result.value.order.status == Paid
      && r.result.value.order.licenseKey == Some(r.result.value.license.key)
      && r.result.value.order.price == Catalog.Lookup(tier).value.price
      && (tier != Catalog.Lifetime ==>
            r.result.value.license.expiry - r.result.value.license.created
              == Catalog.Lookup(tier).value.days * DayMs)
      && (tier == Catalog.Lifetime ==>
            && r.result.value.license.expiry - r.result.value.license.created == CenturyMs
            && CenturyMs >= 50 * 365 * DayMs)
      && RevenueOf(r.store.stats.revenue, tier)
           == RevenueOf(s.stats.revenue, tier) + Catalog.Lookup(tier).value.price
  {
    var placed := CreateOrder(s, tier, email, paymentMethod, info, orderId, created, today);
    PaymentBooksRevenue(placed.store, orderId, evidence, paidAt, random, digest);
  }

  /**
   * A freshly issued license of any tier validates from any device at any moment
   * from its issue up to its expiry, which lies after the issue.
   */
  lemma FreshLicenseValidates(s: Store, orderId: string, evidence: Evidence, paidAt: Time,
                              random: seq<byte>, digest: Digest, hwid: string, now: Time,
                              tokenRandom: seq<byte>)
    requires orderId in s.orders && s.orders[orderId].status != Paid
    requires s.settings.maxActivations > 0
    ensures var r := ProcessPayment(s, orderId, evidence, paidAt, random, digest);
      var lic := r.result.value.license;
      && lic.expiry > paidAt
      && (paidAt <= now <= lic.expiry ==>
            var v := Validate(r.store, lic.key, hwid, now, tokenRandom, digest);
            && v.result.Success?
            && v.result.value.key == lic.key
            && v.store.licenses[lic.key].hwid == []
            && v.store.licenses[lic.key].activations == 0)
  {
  }

  /** A WEEK license validated the moment it is issued has 7 days left. */
  lemma WeekLicenseHasSevenDaysLeft(s: Store, email: string, paymentMethod: string, info: CustomInfo,
                                    orderId: string, now: Time, today: string, evidence: Evidence,
                                    random: seq<byte>, digest: Digest, hwid: string, tokenRandom: seq<byte>)
    requires s.settings.maxActivations > 0
    ensures var placed := CreateOrder(s, "WEEK", email, paymentMethod, info, orderId, now, today);
      var paid := ProcessPayment(placed.store, orderId, evidence, now, random, digest);
      var v := Validate(paid.store, paid.result.value.license.key, hwid, now, tokenRandom, digest);
      && placed.order.price == 77
      && v.result.Success?
      && v.result.value.remainingDays == 7
  {
    var placed := CreateOrder(s, "WEEK", email, paymentMethod, info, orderId, now, today);
    var paid := ProcessPayment(placed.store, orderId, evidence, now, random, digest);
    var lic := paid.result.value.license;
    assert lic.expiry == now + 7 * DayMs;
    assert paid.store.licenses[lic.key] == lic;
  }

  /** Confirming an id that was never created is refused as not found. */
  lemma UnknownOrderIsNotFound(s: Store, evidence: Evidence, now: Time, random: seq<byte>, digest: Digest)
    requires "SNK999999ZZZZZZ" !in s.orders
    ensures ProcessPayment(s, "SNK999999ZZZZZZ", evidence, now, random, digest).result
      == Failure(OrderNotFound)
  {
  }

  // ---------------------------------------------------------------------------
  // Validation

  /**
   * A license seen past its expiry is refused and stored as EXPIRED, and every later
   * validation of it, from any device, is refused as expired again.
   */
  lemma ExpiryIsLazyAndSticks(s: Store, key: string, hwid: string, now: Time, tokenRandom: seq<byte>,
                              digest: Digest, hwid2: string, now2: Time, tokenRandom2: seq<byte>)
    requires key in s.licenses && s.licenses[key].status != Banned
    requires now > s.licenses[key].expiry
    requires now2 >= now
    ensures var r := Validate(s, key, hwid, now, tokenRandom, digest);
      && r.result == Failure(LicenseExpired)
      && r.store.licenses[key].status == Expired
      && Validate(r.store, key, hwid2, now2, tokenRandom2, digest).result == Failure(LicenseExpired)
  {
  }

  /**
   * In a consistent store no license is bound to a device and none has used an
   * activation, so validation never reports an unauthorised device, reports the
   * quota only when the configured limit is not positive, and never changes the
   * activation count or bindings of any license.
   */
  lemma ValidationNeverBindsOrCounts(s: Store, key: string, hwid: string, now: Time,
                                     tokenRandom: seq<byte>, digest: Digest)
    requires Valid(s)
    ensures var r := Validate(s, key, hwid, now, tokenRandom, digest);
      && r.result != Failure(DeviceNotAuthorized)
      && (r.result == Failure(ActivationLimitReached) <==>
            key in s.licenses && s.licenses[key].status != Banned && now <= s.licenses[key].expiry
            && s.settings.maxActivations <= 0)
      && r.store.licenses.Keys == s.licenses.Keys
      && (forall k :: k in s.licenses ==>
            r.store.licenses[k].activations == s.licenses[k].activations
            && r.store.licenses[k].hwid == s.licenses[k].hwid)
  {
  }

  /**
   * A successful validation binds nothing: while a license has no bound device (as
   * every license of a consistent store), a second device validating before expiry
   * succeeds as well.
   */
  lemma SecondDeviceAlsoValidates(s: Store, key: string, device1: string, device2: string, now: Time,
                                  now2: Time, tokenRandom: seq<byte>, tokenRandom2: seq<byte>, digest: Digest)
    requires key in s.licenses && s.licenses[key].hwid == []
    requires Validate(s, key, device1, now, tokenRandom, digest).result.Success?
    requires now2 <= s.licenses[key].expiry
    ensures var s1 := Validate(s, key, device1, now, tokenRandom, digest).store;
      && s1.licenses[key].hwid == []
      && Validate(s1, key, device2, now2, tokenRandom2, digest).result.Success?
  {
  }
}

=== FILE: results.dfy ===
/** Small failure-carrying datatypes shared by the whole model. */
module Results {

  /** A value that may be absent; stands for the source's `null`. */
  datatype Option<+T> = None | Some(value: T)

  /** The `{ success, ... }` replies of the engine: a value or an error kind. */
  datatype Result<+R, +E> = Success(value: R) | Failure(error: E)
}

=== FILE: search.dfy ===
/** The order search handler: by id first, otherwise the most recent order of an email. */
module Search {
  import opened Results
  import opened Database

  /** `o` is an order of `email` and no order of that email was created later. */
  predicate IsLatestFor(orders: map<string, Order>, email: string, o: Order)
  {
    && o in orders.Values
    && o.email == email
    && forall id :: id in orders && orders[id].email == email ==> orders[id].created <= o.created
  }

  /** An order of `email` with the greatest creation time, or None when the email has no order. */
  method LatestOrderFor(orders: map<string, Order>, email: string) returns (r: Option<Order>)
    ensures r.None? <==> forall id :: id in orders ==> orders[id].email != email
    ensures r.Some? ==> IsLatestFor(orders, email, r.value)
  {
    var remaining := orders.Keys;
    r := None;
    while remaining != {}
      invariant remaining <= orders.Keys
      invariant r.None? <==> forall id :: id in orders && id !in remaining ==> orders[id].email != email
      invariant r.Some? ==> r.value in orders.Values && r.value.email == email
      invariant r.Some? ==> forall id :: id in orders && id !in remaining && orders[id].email == email ==>
                                 orders[id].created <= r.value.created
      decreases remaining
    {
      var id :| id in remaining;
      var o := orders[id];
      if o.email == email && (r.None? || o.created > r.value.created) {
        r := Some(o);
      }
      remaining := remaining - {id};
    }
  }

  /**
   * `/api/search-order`: the order stored under `orderId` when that id is given and
   * known; otherwise, when an email is given, its most recent order; otherwise
   * nothing. An empty string stands for an absent field. The store is only read.
   */
  method SearchOrder(s: Store, orderId: string, email: string) returns (r: Option<Order>)
    ensures orderId != "" && orderId in s.orders ==> r == Some(s.orders[orderId])
    ensures !(orderId != "" && orderId in s.orders) && email == "" ==> r == None
    ensures !(orderId != "" && orderId in s.orders) && email != "" ==>
      && (r.None? <==> forall id :: id in s.orders ==> s.orders[id].email != email)
      && (r.Some? ==> IsLatestFor(s.orders, email, r.value))
  {
    if orderId != "" && orderId in s.orders {
      r := Some(s.orders[orderId]);
    } else if email != "" {
      r := LatestOrderFor(s.orders, email);
    } else {
      r := None;
    }
  }
}

=== FILE: traces.dfy ===
/**
 * Sequences of operations. Whatever mix of order creations, confirmations,
 * cancellations and validations runs, the invariant holds throughout and a PAID
 * order is never changed again, provided each freshly minted id is unused.
 */
module Traces {
  import opened Identifiers
  import opened Database
  import opened Lifecycle
  import opened Validator
  import Catalog
  import opened Invariants

  datatype Op =
    | NewOrder(tier: string, email: string, paymentMethod: string, info: CustomInfo,
               orderId: string, now: Time, today: string)
    | Pay(orderId: string, evidence: Evidence, now: Time, random: seq<byte>, digest: Digest)
    | Cancel(orderId: string)
    | Check(key: string, hwid: string, now: Time, tokenRandom: seq<byte>, digest: Digest)

  function Apply(s: Store, op: Op): Store
  {
    match op
    case NewOrder(tier, email, payBy, info, id, now, today) =>
      CreateOrder(s, tier, email, payBy, info, id, now, today).store
    case Pay(id, evidence, now, random, digest) => ProcessPayment(s, id, evidence, now, random, digest).store
    case Cancel(id) => CancelOrder(s, id).store
    case Check(key, hwid, now, random, digest) => Validate(s, key, hwid, now, random, digest).store
  }

  function Run(s: Store, ops: seq<Op>): Store
    decreases |ops|
  {
    if |ops| == 0 then s else Run(Apply(s, ops[0]), ops[1..])
  }

  /** The id the operation would mint is not in use yet. */
  ghost predicate Fresh(s: Store, op: Op)
  {
    match op
    case NewOrder(_, _, _, _, id, _, _) => id !in s.orders
    case Pay(id, _, now, random, digest) => PaymentFresh(s, id, now, random, digest)
    case Cancel(_) => true
    case Check(_, _, _, _, _) => true
  }

  ghost predicate FreshAlong(s: Store, ops: seq<Op>)
    decreases |ops|
  {
    |ops| == 0 || (Fresh(s, ops[0]) && FreshAlong(Apply(s, ops[0]), ops[1..]))
  }

  lemma StepPreservesValid(s: Store, op: Op)
    requires Valid(s) && Fresh(s, op)
    ensures Valid(Apply(s, op)) && PaidKept(s, Apply(s, op))
  {
    match op
    case NewOrder(tier, email, payBy, info, id, now, today) =>
      CreateOrderPreservesValid(s, tier, email, payBy, info, id, now, today);
    case Pay(id, evidence, now, random, digest) =>
      ProcessPaymentPreservesValid(s, id, evidence, now, random, digest);
    case Cancel(id) =>
      CancelOrderPreservesValid(s, id);
    case Check(key, hwid, now, random, digest) =>
      ValidatePreservesValid(s, key, hwid, now, random, digest);
  }

  /** The invariant holds after any run, and PAID orders from before are untouched. */
  lemma {:induction false} RunPreservesValid(s: Store, ops: seq<Op>)
    requires Valid(s) && FreshAlong(s, ops)
    ensures Valid(Run(s, ops)) && PaidKept(s, Run(s, ops))
    decreases |ops|
  {
    if |ops| > 0 {
      var s1 := Apply(s, ops[0]);
      StepPreservesValid(s, ops[0]);
      RunPreservesValid(s1, ops[1..]);
    }
  }

  /**
   * From start-up, every reachable store has a license key on exactly the PAID
   * orders, and each tier's revenue is its price times its number of paid orders.
   */
  lemma ReachableStoresAreValid(today: string, ops: seq<Op>)
    requires FreshAlong(InitialStore(today), ops)
    ensures var s := Run(InitialStore(today), ops);
      && Valid(s)
      && s.stats.totalOrders == |s.orders|
      && (forall id :: id in s.orders ==> (s.orders[id].licenseKey.Some? <==> s.orders[id].status == Paid))
      && RevenueTotal(s.stats.revenue) == s.stats.totalSales
      && (forall t :: RevenueOf(s.stats.revenue, t) == Catalog.PriceOf(t) * |PaidOfTier(s.orders, t)|)
  {
    RunPreservesValid(InitialStore(today), ops);
  }
}

=== FILE: validator.dfy ===
/**
 * The license validator: the ordered checks of the validation handler, the lazy
 * EXPIRED write, and the `remainingDays` it reports.
 */
module Validator {
  import opened Results
  import opened Identifiers
  import opened Database

  /** The public fields a successful validation reports, plus a fresh temporary token. */
  datatype LicenseView = LicenseView(
    key: string,
    tier: string,
    expiry: int,
    activations: int,
    maxActivations: int,
    remainingDays: nat,
    token: string)

  /** `Math.ceil((expiry - now) / day)` for an expiry not yet passed: whole days, rounded up. */
  function RemainingDays(expiry: int, now: Time): (d: nat)
    requires now <= expiry
    ensures (d - 1) * DayMs < expiry - now <= d * DayMs
  {
    (expiry - now + DayMs - 1) / DayMs
  }

  /** The license passes every check: not banned, not past expiry, quota left, device allowed. */
  predicate Admits(lic: License, hwid: string, now: Time)
  {
    && lic.status != Banned
    && now <= lic.expiry
    && lic.activations < lic.maxActivations
    && (|lic.hwid| == 0 || hwid in lic.hwid)
  }

  /**
   * Validation of `key` from device `hwid` at `now`. The checks run in order and the
   * first failure is reported: unknown key, BANNED, past expiry (which also stores
   * the license as EXPIRED), activation quota used up, device not among the bound
   * ones. A license that passes gets `lastUsed = now` and nothing else about it
   * changes; the reply carries its public fields and the remaining whole days.
   */
  function Validate(s: Store, key: string, hwid: string, now: Time,
                    tokenRandom: seq<byte>, digest: Digest): (r: Reply<LicenseView>)
    ensures key !in s.licenses ==> r == Reply(Failure(LicenseNotFound), s)
    ensures key in s.licenses ==>
      var lic := s.licenses[key];
      && (lic.status == Banned ==> r == Reply(Failure(LicenseBanned), s))
      && (lic.status != Banned && now > lic.expiry ==>
            r == Reply(Failure(LicenseExpired), s.(licenses := s.licenses[key := lic.(status := Expired)])))
      && (lic.status != Banned && now <= lic.expiry && lic.activations >= lic.maxActivations ==>
            r == Reply(Failure(ActivationLimitReached), s))
      && (lic.status != Banned && now <= lic.expiry && lic.activations < lic.maxActivations
          && |lic.hwid| > 0 && hwid !in lic.hwid ==>
            r == Reply(Failure(DeviceNotAuthorized), s))
    ensures r.result.Success? <==> key in s.licenses && Admits(s.licenses[key], hwid, now)
    ensures r.result.Success? ==>
      var lic, v := s.licenses[key], r.result.value;
      && r.store == s.(licenses := s.licenses[key := lic.(lastUsed := Some(now))])
      && v.key == lic.key && v.tier == lic.tier && v.expiry == lic.expiry
      && v.activations == lic.activations && v.maxActivations == lic.maxActivations
      && (v.remainingDays - 1) * DayMs < lic.expiry - now <= v.remainingDays * DayMs
      && v.token == LicenseKey("MONTH", tokenRandom, digest)
  {
    if key !in s.licenses then Reply(Failure(LicenseNotFound), s)
    else
      var lic := s.licenses[key];
      if lic.status == Banned then Reply(Failure(LicenseBanned), s)
      else if now > lic.expiry then
        Reply(Failure(LicenseExpired), s.(licenses := s.licenses[key := lic.(status := Expired)]))
      else if lic.activations >= lic.maxActivations then Reply(Failure(ActivationLimitReached), s)
      else if |lic.hwid| > 0 && hwid !in lic.hwid then Reply(Failure(DeviceNotAuthorized), s)
      else
        var view := LicenseView(lic.key, lic.tier, lic.expiry, lic.activations, lic.maxActivations,
                                RemainingDays(lic.expiry, now), LicenseKey("MONTH", tokenRandom, digest));
        Reply(Success(view), s.(licenses := s.licenses[key := lic.(lastUsed := Some(now))]))
  }
}
